=== FILE: README.md ===
# Session-authenticated user API — Dafny model

This project models the decision logic of a small Express/Mongoose/Passport
service that registers users by email and password, logs them in with a
server-side session, and lists registered users as JSON and as an HTML page.

The model is functional. The users collection is an immutable map from
normalised email to the stored document (`UserStore.Store`). Each request
handler is a pure function (or, where the listing is sorted, a method) of
what it reads, and returns a status with a JSON or HTML body:

- `AuthRoutes.Register` and `AuthRoutes.Login` take the credential fields,
  the store and the request's environment, and also return the next store
  and the id `req.login` wrote into the session.
- `AuthRoutes.Logout` takes the environment and the session id, and also
  returns the session id left afterwards.
- `AuthRoutes.Me` takes only the user resolved from the session.
- `UsersRoutes.ListRoute` and `UsersRoutes.PageRoute` take the environment,
  the store and the resolved user (and the page a date formatter), and
  return the response alone.

The code the handlers call but that is not modelled is passed in as
parameters:

- `World.Deps` holds bcrypt's `hash`/`compare` and Mongoose's
  `isValidObjectId`. The one property assumed of bcrypt is
  `World.HashSound`: a password matches its own hash, for every salt.
- `World.Env` is what one request meets: which awaited calls throw and with
  what error, the salt bcrypt draws, the `_id` the driver assigns, and the
  clock reading.

Modules follow the source files:

- `Email`: `normalizeEmail` (trim, then lower-case).
- `Html`: `escapeHtml`.
- `UserStore`: src/data/userStore.js.
- `Passport`: src/config/passport.js.
- `AuthRoutes`: src/routes/auth.js.
- `UsersRoutes`: src/routes/users.js, with the `requireAuth` gate.
- `Flows`: properties spanning several requests.
- `Base`, `World` and `Http`: shared types.

A few facts about the code that the model keeps:

- A successful strategy passes the whole mapped record, password hash
  included, to `done(null, user)` (src/config/passport.js:23). The hash
  only leaves the server through a response, and no response carries it
  (`HidesHash`).
- A failing session lookup is reported with `done(error)`; a missing or
  malformed id gives `false` (src/config/passport.js:37-40). A malformed
  id never reaches the query (src/data/userStore.js:32-33), so it gives
  `false` even when the lookup would have failed.
- The listing always projects exactly `email` and `createdAt`, plus `_id`
  (src/data/userStore.js:47).

## Model

| member | source | states |
|---|---|---|
| Email.Trim | src/data/userStore.js:5 | the result is the slice of the input between its leading and trailing white space (the ECMAScript set), which are all white space, and it has none at either end |
| Email.TrimIs | src/data/userStore.js:5 | trim keeps exactly the slice from the first to the last character that is not white space |
| Email.Lower | src/data/userStore.js:5 | lower-casing keeps the length, leaves no upper-case letter, keeps every other character, and moves each upper-case letter down by 32 (ASCII) |
| Email.NormalizeEmail | src/data/userStore.js:4-6 | the result has no white space at either end and no upper-case letter |
| Email.NormalizeFixesNormal | src/data/userStore.js:4-6 | normalisation leaves an email unchanged exactly when it is already normal |
| Email.NormalizeIdempotent | src/data/userStore.js:4-6 | normalising twice equals normalising once |
| Email.NormalizeIgnoresCase | src/data/userStore.js:4-6 | lower-casing an email first does not change its normal form, so "A@b.com" and "a@b.com" collide |
| Email.NormalizeIgnoresPadding | src/data/userStore.js:4-6 | white space added around an email does not change its normal form, so " a@b.com " and "a@b.com" collide |
| Html.ReplaceAll | src/routes/users.js:9-13 | a global one-character replace leaves no copy of the character when the replacement lacks it, and is the identity when the input lacks it |
| Html.EscapeHtml | src/routes/users.js:7-14 | the five global replacements in source order, `&` first; what they mean is stated by `Html.EscapeHtmlIsPerChar`, `Html.EscapedHasNoMarkup`, `Html.EscapedAmpersandsStartEntities` and `Html.UnescapeEscape` |
| Html.ReplaceAllAppend | src/routes/users.js:9-13 | a global replace acts on each part of a concatenation separately |
| Html.EscapeHtmlChar | src/routes/users.js:8-13 | one character escapes to its entity (or itself): because `&` is replaced first, no entity written by a later pass is escaped again |
| Html.EscapeHtmlIsPerChar | src/routes/users.js:7-14 | the five passes as written equal escaping each character in turn |
| Html.EscapeHtmlAppend | src/routes/users.js:8-13 | escaping a concatenation is the concatenation of the escapings |
| Html.EscapedHasNoMarkup | src/routes/users.js:7-14 | the output contains no `<`, `>`, `"` or `'` |
| Html.EscapedAmpersandsStartEntities | src/routes/users.js:9-13 | every `&` in the output starts `&amp;`, `&lt;`, `&gt;`, `&quot;` or `&#39;` |
| Html.EscapeHtmlKeepsPlainText | src/routes/users.js:8-13 | text without the five special characters is copied unchanged |
| Html.EscapeHtmlLength | src/routes/users.js:8-13 | output length is at least input length, equal exactly when no special character occurs |
| Html.UnescapeEscape | src/routes/users.js:8-13 | decoding the five entities recovers the input |
| Html.EscapeHtmlInjective | src/routes/users.js:8-13 | different inputs escape to different outputs |
| UserStore.MapUser | src/data/userStore.js:8-19 | null maps to null; a document maps to exactly its id, email key, password hash and creation time |
| UserStore.FindByEmail | src/data/userStore.js:40-44 | a user is found exactly when the normalised email is a key, and it is that key's record |
| UserStore.FindByEmailIgnoresForm | src/data/userStore.js:40-44 | two emails with the same normal form find the same result |
| UserStore.FindById | src/data/userStore.js:31-38 | an id failing the validity check gives null whatever the store; a valid id finds a record exactly when some document has that id (compared as the stored string), and the record carries it |
| UserStore.FindByIdOfStored | src/data/userStore.js:31-38 | in a valid store, the user found by email is found again by its id |
| UserStore.CreateUser | src/data/userStore.js:21-29 | insertion succeeds exactly when neither the normalised email nor the new id is taken; it stores and returns the normalised email, adds exactly one document, and keeps the store valid; a clash is a duplicate-key error |
| UserStore.CreateThenFind | src/data/userStore.js:21-44 | after a create, every spelling of the same email finds the created record |
| UserStore.OneRecordPerEmail | src/data/userStore.js:21-28 | in a valid store two keys with the same normal form are one key |
| UserStore.InsertByDate | src/data/userStore.js:47-49 | insertion keeps a list newest-first and adds exactly the one entry (as a multiset) |
| UserStore.ListUsers | src/data/userStore.js:46-56 | the listing is newest-first by `createdAt`, has one entry per stored user, and every entry is that user's id, email and creation time |
| Passport.Verify | src/config/passport.js:9-27 | success exactly when nothing throws, the user exists and the password matches its stored hash, and the authenticated value is the looked-up record; every rejection is "Invalid credentials"; a lookup or compare failure is an error, not a rejection |
| Passport.Authenticate | src/config/passport.js:7-9 | a falsy resolved email or password is rejected with "Missing credentials"; otherwise the verify callback decides |
| Passport.RejectionsIndistinguishable | src/config/passport.js:11-21 | an unknown email and a wrong password give the identical rejection |
| Passport.VerifyIgnoresEmailForm | src/config/passport.js:11 | emails with the same normal form authenticate identically |
| Passport.DeserializeUser | src/config/passport.js:35-42 | a malformed id gives no identity without a lookup; for a well-formed id a lookup failure is that error, otherwise the user with that id or no identity when none has it |
| Passport.SerializeUser | src/config/passport.js:31-33 | the session keeps only the user's id; `Passport.SessionRoundTrip` proves it is read back as the same user |
| Passport.SessionRoundTrip | src/config/passport.js:31-42 | a stored user's serialised id deserialises back to that user |
| Passport.IsAuthenticated | src/middleware/requireAuth.js:2 | a request is authenticated exactly when a user was resolved from its session; `AuthRoutes.Me` answers 401 exactly when it is false, and the listing routes answer 401 "Unauthorized. Please log in." when it is false |
| AuthRoutes.RegisterFailure | src/routes/auth.js:48-59 | code 11000 gives 409; any other error gives 500 with the error's message; the store is unchanged |
| AuthRoutes.Register | src/routes/auth.js:8-60 | 400 exactly on a missing field or a short password (presence checked first), with the store unchanged; 409 when the normalised email exists; the store gains at most the one record for the normalised email and stays valid; 201 exactly when nothing throws and the email and id are free, answering `{id, email}` of the new record and writing its id into the session; no response has a `passwordHash` key |
| AuthRoutes.RejectionMessage | src/routes/auth.js:71-75 | the strategy's message when it has one, otherwise "Invalid credentials." |
| AuthRoutes.Login | src/routes/auth.js:62-94 | the store is unchanged; 200 exactly when the fields are present, nothing throws and the password matches; it answers `{id, email}` of the stored user and writes that id into the session; 401 carries the strategy's message; no `passwordHash` key |
| AuthRoutes.LoginRejectionsIndistinguishable | src/routes/auth.js:62-75 | login with an unknown email and with a wrong password give identical responses, 401 "Invalid credentials" |
| AuthRoutes.Logout | src/routes/auth.js:96-119 | 200 exactly when neither logout nor session destruction throws, 500 otherwise, no hash in any answer; once `req.logout` succeeds the session holds no user |
| AuthRoutes.Me | src/routes/auth.js:121-134 | 401 exactly when unauthenticated; otherwise 200 with only `user: {id, email}` |
| UsersRoutes.SummaryJson | src/routes/users.js:20-23 | a listing entry has exactly the keys id, email and createdAt, holding the summary's id, email and creation time, and no hash |
| UsersRoutes.SummariesJson | src/routes/users.js:20-23 | one JSON entry per listed user, in order, none with a `passwordHash` key |
| UsersRoutes.SummariesKeepOrder | src/routes/users.js:18-23 | rendering a newest-first listing as JSON keeps every `createdAt` stamp and keeps them in non-increasing order |
| UsersRoutes.ListItem | src/routes/users.js:41 | an entry starts with `<li><strong>` followed by the escaped email, which holds no `<`, `>`, `"` or `'` and decodes back to the email |
| UsersRoutes.ListItems | src/routes/users.js:38-43 | the joined entries are empty exactly when there is no user, and otherwise start with the first entry's `<li><strong>` |
| UsersRoutes.ListMarkup | src/routes/users.js:35-43 | the "No users found" paragraph appears exactly when the list is empty; otherwise the markup is `<ul>`, the entries in order, then `</ul>` |
| UsersRoutes.ListRoute | src/routes/users.js:16-30 | 401 unless authenticated; 500 on a listing failure; otherwise `total` is the number of stored users and `users` holds every stored user's entry, newest first by `createdAt`, with no `passwordHash` key; the 500 reply carries the listing error's message |
| UsersRoutes.PageRoute | src/routes/users.js:32-68 | 401 unless authenticated; on failure the error message appears escaped; otherwise the page's count is the number of stored users and the empty-list paragraph appears exactly when there are none |
| Flows.RegisterThenLogin | src/routes/auth.js:32-91 | under the hash axiom, login after a successful registration with the same credentials gives 200 with the same user and the same session id |
| Flows.RegisterTwice | src/routes/auth.js:24-30 | registering again under any spelling with the same normal form gives 409 and leaves the first record in place |
| Flows.RegisterThenMe | src/config/passport.js:31-42 | the id a registration writes into the session resolves to the registered user, and `/auth/me` answers the same `{id, email}` |
| Flows.Handle | src/routes/auth.js:8-94 | one register, login or logout request keeps the store valid and adds at most one record |
| Flows.RunKeepsStoreValid | src/routes/auth.js:24-53 | after any sequence of requests the store holds at most one record per normalised email with distinct ids, and has grown by at most one record per request |

## Left out

- Email.Lower: lower-cases ASCII letters only. JavaScript's `toLowerCase` also maps non-ASCII letters, so a non-ASCII upper-case letter is not modelled.
- AuthRoutes.Register: the 6-character minimum counts Unicode scalar values. JavaScript's `length` counts UTF-16 code units, so the two differ for characters outside the Basic Multilingual Plane.
- Request body fields are absent or strings (`Http.Field`). Numbers, booleans, arrays and objects in the request body (JSON or URL-encoded) are not modelled.
- `String(value)` coercion in `escapeHtml` and `normalizeEmail`: every modelled caller passes a string.
- bcrypt internals: the cost factor 12, salt generation and constant-time comparison. Hashing and comparing are the `Deps` parameters, related only by `HashSound`.
- Mongoose's `isValidObjectId` rule and ObjectId generation: the rule is the `validId` parameter and the new id is `Env.freshId`.
- The unique index in models/User, which is not part of this model. It is represented by the map's key uniqueness and by `CreateUser` failing with code 11000 on a clash.
- The check-then-insert race between `findByEmail` and `createUser`: requests are handled one after another. An insert that throws code 11000 is still mapped to 409.
- passport-local's "Missing credentials" check is library code, not in the repository; its behaviour is stated in `Passport.Authenticate`.
- AuthRoutes.Logout: promises nothing about the session after `req.logout` fails. That outcome depends on passport's logout internals, which are library code and are not part of this model.
- Passport.Authenticate: takes the credential values passport-local has already resolved. The library reads each field from the request body and falls back to the query string; that lookup is library code and is not modelled, so `AuthRoutes.Login` is stated for the resolved values while `AuthRoutes.Register` reads the body alone.
- UserStore.FindById: compares the id with the stored id as strings. Mongoose casts a valid id to an ObjectId first, so a different spelling of the same ObjectId (upper-case hexadecimal, say) finds the document in the source but not in the model. Session ids come from `serializeUser`, which writes the canonical string, so the routes are unaffected.
- Passport's session middleware that turns the session id into `req.user`: only `deserializeUser` is modelled, and `/auth/me` takes the resolved user. What Express does with a deserialisation error is not modelled.
- `req.login`/`req.logout` internals (session regeneration, cookie clearing): each is one call that may throw.
- Date formatting with `toLocaleString` (the `formatDate` parameter), the fixed HTML template text, and JSON serialisation of dates (`Http.Stamp`).
- The text of MongoDB's duplicate-key message: only its code is used.
- UserStore.ListUsers: does not fix the order of users with equal `createdAt`, because the database does not either.
- src/server.js (app wiring, configuration, cookie options, process exit) and src/config/database.js (the connection) are I/O and configuration.
- src/routes/protected.js: the `requireAuth` gate is folded into `Passport.IsAuthenticated`, which the listing routes and `/auth/me` use. The protected route itself is not modelled.

=== FILE: auth_routes.dfy ===
/** src/routes/auth.js: each handler as a function from the request body,
    the store and the request's environment to a response, the next store
    and the id `req.login` wrote into the session. */
module AuthRoutes {
  import opened Base
  import opened Email
  import opened UserStore
  import opened World
  import opened Http
  import opened Passport

  datatype Reply = Reply(response: Response, store: Store, session: Option<string>)

  const EmailAndPasswordRequired := "Email and password are required."
  const PasswordTooShort := "Password must be at least 6 characters long."
  const AlreadyExists := "User with this email already exists."
  const MinPasswordLength := 6

  /** The input checks `/register` performs before touching the store, in
      order: presence, then length. */
  predicate RegisterInputOk(email: Field, password: Field) {
    Truthy(email) && Truthy(password) && |password.s| >= MinPasswordLength
  }

  /** The `catch` of `/register`: a duplicate-key error is a conflict,
      anything else a failure with the error's message. */
  function RegisterFailure(e: Error, s: Store): (r: Reply)
    ensures r.store == s && r.session.None? && HidesHash(r.response)
    ensures r.response.status == 409 <==> e.code == Some(DuplicateKeyCode)
    ensures r.response.status != 409 ==> r.response == Response(500, Json(MessageWithError("Registration failed.", e.message)))
  {
    if e.code == Some(DuplicateKeyCode) then Reply(Response(409, Json(Message(AlreadyExists))), s, None)
    else Reply(Response(500, Json(MessageWithError("Registration failed.", e.message))), s, None)
  }

  /** `POST /auth/register`. */
  function Register(d: Deps, env: Env, s: Store, email: Field, password: Field): (r: Reply)
    ensures r.response.status in {201, 400, 409, 500}
    ensures HidesHash(r.response)
    // validation comes first, presence before length, and never touches the store
    ensures r.response.status == 400 <==> !RegisterInputOk(email, password)
    ensures !Truthy(email) || !Truthy(password) ==> MessageOf(r.response) == EmailAndPasswordRequired
    ensures Truthy(email) && Truthy(password) && |password.s| < MinPasswordLength ==>
      MessageOf(r.response) == PasswordTooShort
    ensures r.response.status == 400 ==> r.store == s && r.session.None?
    // an email whose normal form is taken is a conflict
    ensures RegisterInputOk(email, password) && !Throws(env, LookupEmail) && FindByEmail(s, email.s).Some? ==>
      r.response.status == 409 && r.store == s
    ensures r.response.status == 409 ==> r.store == s && MessageOf(r.response) == AlreadyExists
    // the store gains at most the one record for the normalised email
    ensures r.store == s || (
      && RegisterInputOk(email, password)
      && NormalizeEmail(email.s) !in s.docs
      && r.store.docs == s.docs[NormalizeEmail(email.s) := Doc(env.freshId, d.hash(password.s, env.salt), env.now, env.now)])
    ensures Valid(s) ==> Valid(r.store)
    // success: exactly that record, answered with its id and email only
    ensures r.response.status == 201 <==>
      && RegisterInputOk(email, password)
      && !Throws(env, LookupEmail) && !Throws(env, HashPassword) && !Throws(env, Insert) && !Throws(env, SessionLogin)
      && NormalizeEmail(email.s) !in s.docs && !IdInUse(s, env.freshId)
    ensures r.response.status == 201 ==>
      && r.store != s
      && r.session == Some(env.freshId)
      && r.response.body.Json?
      && Get(r.response.body.value, "user") == PublicUser(env.freshId, NormalizeEmail(email.s))
    ensures r.response.status != 201 ==> r.session.None?
  {
    if !Truthy(email) || !Truthy(password) then
      Reply(Response(400, Json(Message(EmailAndPasswordRequired))), s, None)
    else if |password.s| < MinPasswordLength then
      Reply(Response(400, Json(Message(PasswordTooShort))), s, None)
    else if Throws(env, LookupEmail) then RegisterFailure(env.faults[LookupEmail], s)
    else if FindByEmail(s, email.s).Some? then
      Reply(Response(409, Json(Message(AlreadyExists))), s, None)
    else if Throws(env, HashPassword) then RegisterFailure(env.faults[HashPassword], s)
    else
      var passwordHash := d.hash(password.s, env.salt);
      if Throws(env, Insert) then RegisterFailure(env.faults[Insert], s)
      else
        match CreateUser(s, email.s, passwordHash, env.freshId, env.now)
        case Fail(e) => RegisterFailure(e, s)
        case Ok((user, s')) =>
          assert user.email !in s.docs && user.email in s'.docs;
          if Throws(env, SessionLogin) then
            Reply(Response(500, Json(Message("Registration succeeded, but login failed."))), s', None)
          else
            var body := MessageWithUser("Registration successful.", PublicUser(user.id, user.email));
            Reply(Response(201, Json(body)), s', Some(SerializeUser(user)))
  }

  /** The 401 message: the strategy's, unless it gave none. */
  function RejectionMessage(info: Option<string>): (m: string)
    ensures m != ""
    ensures info.Some? && info.value != "" ==> m == info.value
    ensures !(info.Some? && info.value != "") ==> m == "Invalid credentials."
  {
    if info.Some? && info.value != "" then info.value else "Invalid credentials."
  }

  /** `POST /auth/login`. */
  function Login(d: Deps, env: Env, s: Store, email: Field, password: Field): (r: Reply)
    ensures r.store == s
    ensures r.response.status in {200, 401, 500}
    ensures HidesHash(r.response)
    ensures r.response.status == 200 <==>
      && Truthy(email) && Truthy(password)
      && !Throws(env, LookupEmail) && !Throws(env, ComparePassword) && !Throws(env, SessionLogin)
      && PasswordMatches(d, s, email.s, password.s)
    ensures r.response.status == 200 ==>
      var user := FindByEmail(s, email.s).value;
      && r.session == Some(user.id)
      && r.response.body.Json?
      && Get(r.response.body.value, "user") == PublicUser(user.id, user.email)
    ensures r.response.status != 200 ==> r.session.None?
    ensures r.response.status == 401 ==>
      MessageOf(r.response) == (if Truthy(email) && Truthy(password) then InvalidCredentials else MissingCredentials)
  {
    match Authenticate(d, env, s, email, password)
    case Errored(e) => Reply(Response(500, Json(MessageWithError("Login failed.", e.message))), s, None)
    case Rejected(info) => Reply(Response(401, Json(Message(RejectionMessage(info)))), s, None)
    case Authenticated(user) =>
      if Throws(env, SessionLogin) then
        Reply(Response(500, Json(MessageWithError("Login failed.", env.faults[SessionLogin].message))), s, None)
      else
        var body := MessageWithUser("Login successful.", PublicUser(user.id, user.email));
        Reply(Response(200, Json(body)), s, Some(SerializeUser(user)))
  }

  /** Both ways of failing the credential check give the same response. */
  lemma LoginRejectionsIndistinguishable(d: Deps, env: Env, s: Store, unknown: string, p: string, known: string, wrong: string)
    requires !Throws(env, LookupEmail) && !Throws(env, ComparePassword)
    requires unknown != "" && p != "" && known != "" && wrong != ""
    requires FindByEmail(s, unknown).None?
    requires FindByEmail(s, known).Some? && !d.compare(wrong, FindByEmail(s, known).value.passwordHash)
    ensures Login(d, env, s, Text(unknown), Text(p)) == Login(d, env, s, Text(known), Text(wrong))
    ensures Login(d, env, s, Text(unknown), Text(p)).response == Response(401, Json(Message(InvalidCredentials)))
  {
    RejectionsIndistinguishable(d, env, s, unknown, p, known, wrong);
  }

  /** `POST /auth/logout`: the session's user is removed by `req.logout`
      and the session itself by `destroy`; `session` is the id held before.
      After a failing `req.logout` the session is returned as it was, which
      the contract does not promise. */
  function Logout(env: Env, session: Option<string>): (r: (Response, Option<string>))
    ensures HidesHash(r.0)
    ensures r.0.status == 200 <==> !Throws(env, SessionLogout) && !Throws(env, SessionDestroy)
    ensures r.0.status != 200 ==> r.0.status == 500
    ensures !Throws(env, SessionLogout) ==> r.1 == None
  {
    if Throws(env, SessionLogout) then
      (Response(500, Json(MessageWithError("Logout failed.", env.faults[SessionLogout].message))), session)
    else if Throws(env, SessionDestroy) then
      (Response(500, Json(MessageWithError("Logged out, but failed to clear session.", env.faults[SessionDestroy].message))), None)
    else
      (Response(200, Json(Message("Logout successful."))), None)
  }

  /** `GET /auth/me`: the session's user as `{id, email}`, or 401. */
  function Me(user: Option<User>): (r: Response)
    ensures HidesHash(r)
    ensures r.status == 401 <==> !IsAuthenticated(user)
    ensures !IsAuthenticated(user) ==> MessageOf(r) == "Not authenticated."
    ensures IsAuthenticated(user) ==>
      && r.status == 200 && r.body.Json? && Keys(r.body.value) == ["user"]
      && Get(r.body.value, "user") == PublicUser(user.value.id, user.value.email)
  {
    if !IsAuthenticated(user) then Response(401, Json(Message("Not authenticated.")))
    else
      var body := Obj([("user", PublicUser(user.value.id, user.value.email))]);
      assert Keys(body) == ["user"];
      assert !HasKey(body, "passwordHash") by {
        assert !HasKey(body.fields[0].1, "passwordHash");
      }
      Response(200, Json(body))
  }
}

=== FILE: base.dfy ===
/** Values shared by every layer: optional values, thrown errors and
    fallible results. */
module Base {

  /** JavaScript's `null`/`undefined` versus a present value. */
  datatype Option<+T> = None | Some(value: T)

  /** An exception thrown by the database driver, the password hasher or the
      session layer: its optional numeric `code` property and its `message`. */
  datatype Error = Error(code: Option<int>, message: string)

  /** The outcome of an awaited call that may throw. */
  datatype Result<+T> = Ok(value: T) | Fail(error: Error)

  /** The MongoDB error code for a unique-index violation. */
  const DuplicateKeyCode := 11000
}

=== FILE: email.dfy ===
/** `normalizeEmail` of src/data/userStore.js: `String(email).trim().toLowerCase()`. */
module Email {

  /** The characters `String.prototype.trim` strips: the ECMAScript
      WhiteSpace and LineTerminator code points. */
  predicate IsSpace(c: char) {
    || c == '\t' || c == '\n' || c == '\U{000B}' || c == '\U{000C}' || c == '\r'
    || c == ' ' || c == '\U{00A0}' || c == '\U{1680}'
    || ('\U{2000}' <= c <= '\U{200A}')
    || c == '\U{2028}' || c == '\U{2029}' || c == '\U{202F}' || c == '\U{205F}'
    || c == '\U{3000}' || c == '\U{FEFF}'
  }

  predicate IsUpper(c: char) {
    'A' <= c <= 'Z'
  }

  /** `toLowerCase` on one character, restricted to ASCII. */
  function LowerChar(c: char): (r: char)
    ensures !IsUpper(r)
    ensures IsSpace(r) <==> IsSpace(c)
    ensures !IsUpper(c) ==> r == c
  {
    if IsUpper(c) then (c as int + 32) as char else c
  }

  /** Every character of `s` from index `i` up to `j` is white space. */
  predicate SpaceBetween(s: string, i: int, j: int)
    requires 0 <= i <= j <= |s|
  {
    forall k :: i <= k < j ==> IsSpace(s[k])
  }

  /** Neither the first nor the last character is white space. */
  predicate Trimmed(s: string) {
    s == [] || (!IsSpace(s[0]) && !IsSpace(s[|s| - 1]))
  }

  /** The number of white-space characters at the start of `s`. */
  function LeadCount(s: string): (n: nat)
    ensures n <= |s|
    ensures SpaceBetween(s, 0, n)
    ensures n < |s| ==> !IsSpace(s[n])
  {
    if s != [] && IsSpace(s[0]) then 1 + LeadCount(s[1..]) else 0
  }

  /** The number of white-space characters at the end of `s`. */
  function TrailCount(s: string): (n: nat)
    ensures n <= |s|
    ensures SpaceBetween(s, |s| - n, |s|)
    ensures n < |s| ==> !IsSpace(s[|s| - n - 1])
  {
    if s != [] && IsSpace(s[|s| - 1]) then 1 + TrailCount(s[..|s| - 1]) else 0
  }

  /** `String.prototype.trim`: the result is the slice of the input left
      after dropping its leading and its trailing white space. */
  function Trim(s: string): (r: string)
    ensures Trimmed(r)
    ensures LeadCount(s) + |r| <= |s| && r == s[LeadCount(s)..LeadCount(s) + |r|]
    ensures SpaceBetween(s, 0, LeadCount(s)) && SpaceBetween(s, LeadCount(s) + |r|, |s|)
  {
    var i := LeadCount(s);
    if i == |s| then [] else s[i..|s| - TrailCount(s)]
  }

  /** `String.prototype.toLowerCase`, restricted to ASCII letters. */
  function Lower(s: string): (r: string)
    ensures |r| == |s|
    ensures forall i :: 0 <= i < |r| ==> !IsUpper(r[i])
    ensures forall i :: 0 <= i < |s| && !IsUpper(s[i]) ==> r[i] == s[i]
    ensures forall i :: 0 <= i < |s| && IsUpper(s[i]) ==> r[i] as int == s[i] as int + 32
  {
    seq(|s|, i requires 0 <= i < |s| => LowerChar(s[i]))
  }

  /** A stored email: no surrounding white space and no upper-case letters. */
  predicate IsNormal(e: string) {
    Trimmed(e) && forall i :: 0 <= i < |e| ==> !IsUpper(e[i])
  }

  function NormalizeEmail(email: string): (r: string)
    ensures IsNormal(r)
  {
    Lower(Trim(email))
  }

  /** A string without white space at its ends is left alone by trim. */
  lemma TrimOfTrimmed(s: string)
    requires Trimmed(s)
    ensures Trim(s) == s
  {
  }

  /** Normalisation is the identity exactly on normal emails. */
  lemma NormalizeFixesNormal(e: string)
    ensures NormalizeEmail(e) == e <==> IsNormal(e)
  {
    if IsNormal(e) {
      TrimOfTrimmed(e);
      assert Lower(e) == e;
    }
  }

  /** Normalising twice is the same as normalising once. */
  lemma NormalizeIdempotent(e: string)
    ensures NormalizeEmail(NormalizeEmail(e)) == NormalizeEmail(e)
  {
    NormalizeFixesNormal(NormalizeEmail(e));
  }

  /** A string without upper-case letters is its own lower-casing. */
  lemma LowerKeepsLowercase(s: string)
    requires forall i :: 0 <= i < |s| ==> !IsUpper(s[i])
    ensures Lower(s) == s
  {
  }

  /** The leading white space is characterised by its two ensures. */
  lemma LeadCountUnique(s: string, n: nat)
    requires n <= |s| && SpaceBetween(s, 0, n) && (n < |s| ==> !IsSpace(s[n]))
    ensures LeadCount(s) == n
  {
  }

  /** The trailing white space is characterised by its two ensures. */
  lemma TrailCountUnique(s: string, n: nat)
    requires n <= |s| && SpaceBetween(s, |s| - n, |s|) && (n < |s| ==> !IsSpace(s[|s| - n - 1]))
    ensures TrailCount(s) == n
  {
  }

  /** Trim keeps exactly the slice from the first to the last character
      that is not white space. */
  lemma TrimIs(s: string, i: nat, j: nat)
    requires i <= j <= |s| && SpaceBetween(s, 0, i) && SpaceBetween(s, j, |s|)
    requires i < j ==> !IsSpace(s[i]) && !IsSpace(s[j - 1])
    ensures Trim(s) == s[i..j]
  {
    if i < j {
      LeadCountUnique(s, i);
      TrailCountUnique(s, |s| - j);
    } else {
      LeadCountUnique(s, |s|);
    }
  }

  lemma SliceOfMiddle(p: string, e: string, q: string, i: nat, j: nat)
    requires i <= j <= |e|
    ensures (p + e + q)[|p| + i..|p| + j] == e[i..j]
  {
    var s := p + e + q;
    assert forall k :: 0 <= k < j - i ==> s[|p| + i..|p| + j][k] == e[i..j][k];
  }

  lemma LowerSlice(e: string, i: nat, j: nat)
    requires i <= j <= |e|
    ensures Lower(e)[i..j] == Lower(e[i..j])
  {
    assert forall k :: 0 <= k < j - i ==> Lower(e)[i..j][k] == Lower(e[i..j])[k];
  }

  /** Padding a string with white space moves its trimmed slice but does
      not change it. */
  lemma TrimOfPadded(p: string, e: string, q: string, i: nat, j: nat)
    requires SpaceBetween(p, 0, |p|) && SpaceBetween(q, 0, |q|)
    requires i <= j <= |e| && SpaceBetween(e, 0, i) && SpaceBetween(e, j, |e|)
    requires i < j ==> !IsSpace(e[i]) && !IsSpace(e[j - 1])
    ensures Trim(p + e + q) == e[i..j]
  {
    var s := p + e + q;
    assert SpaceBetween(s, 0, |p| + i) by {
      assert forall k :: 0 <= k < |p| ==> s[k] == p[k];
      assert forall k :: |p| <= k < |p| + i ==> s[k] == e[k - |p|];
    }
    assert SpaceBetween(s, |p| + j, |s|) by {
      assert forall k :: |p| + j <= k < |p| + |e| ==> s[k] == e[k - |p|];
      assert forall k :: |p| + |e| <= k < |s| ==> s[k] == q[k - |p| - |e|];
    }
    if i < j {
      assert s[|p| + i] == e[i] && s[|p| + j - 1] == e[j - 1];
    }
    TrimIs(s, |p| + i, |p| + j);
    SliceOfMiddle(p, e, q, i, j);
  }

  /** White space around an email does not change its normal form. */
  lemma NormalizeIgnoresPadding(p: string, e: string, q: string)
    requires SpaceBetween(p, 0, |p|) && SpaceBetween(q, 0, |q|)
    ensures NormalizeEmail(p + e + q) == NormalizeEmail(e)
  {
    var i := LeadCount(e);
    if i == |e| {
      TrimIs(e, i, i);
      TrimOfPadded(p, e, q, i, i);
    } else {
      var j := |e| - TrailCount(e);
      assert i < j;
      TrimIs(e, i, j);
      TrimOfPadded(p, e, q, i, j);
    }
  }

  /** Lower-casing an email first does not change its normal form. */
  lemma NormalizeIgnoresCase(e: string)
    ensures NormalizeEmail(Lower(e)) == NormalizeEmail(e)
  {
    var l := Lower(e);
    var i := LeadCount(e);
    var j := |e| - TrailCount(e);
    if i == |e| {
      TrimIs(e, 0, 0);
      TrimIs(l, 0, 0);
    } else {
      assert i < j;
      TrimIs(e, i, j);
      TrimIs(l, i, j);
      LowerSlice(e, i, j);
    }
    LowerKeepsLowercase(Lower(Trim(e)));
  }
}

=== FILE: flows.dfy ===
/** Properties that span several requests handled one after another. */
module Flows {
  import opened Base
  import opened Email
  import opened UserStore
  import opened World
  import opened Http
  import opened Passport
  import opened AuthRoutes

  /** A successful registration is followed by a successful login with the
      same credentials, which reports and stores the same id. */
  lemma RegisterThenLogin(d: Deps, first: Env, second: Env, s: Store, email: string, password: string)
    requires HashSound(d)
    requires !Throws(second, LookupEmail) && !Throws(second, ComparePassword) && !Throws(second, SessionLogin)
    requires Register(d, first, s, Text(email), Text(password)).response.status == 201
    ensures var reg := Register(d, first, s, Text(email), Text(password));
      var login := Login(d, second, reg.store, Text(email), Text(password));
      && login.response.status == 200
      && login.session == reg.session
      && Get(login.response.body.value, "user") == Get(reg.response.body.value, "user")
  {
    var reg := Register(d, first, s, Text(email), Text(password));
    var key := NormalizeEmail(email);
    assert reg.store.docs[key].passwordHash == d.hash(password, first.salt);
    assert d.compare(password, d.hash(password, first.salt));
    assert FindByEmail(reg.store, email) == Some(User(first.freshId, key, d.hash(password, first.salt), first.now));
  }

  /** Registering an email again, in any spelling with the same normal form,
      is a conflict and leaves the one record in place. */
  lemma RegisterTwice(d: Deps, first: Env, second: Env, s: Store,
                      email: string, password: string, again: string, password2: string)
    requires !Throws(second, LookupEmail)
    requires Register(d, first, s, Text(email), Text(password)).response.status == 201
    requires NormalizeEmail(again) == NormalizeEmail(email)
    requires RegisterInputOk(Text(again), Text(password2))
    ensures var reg := Register(d, first, s, Text(email), Text(password));
      var dup := Register(d, second, reg.store, Text(again), Text(password2));
      && dup.response.status == 409
      && dup.store == reg.store
      && dup.store.docs[NormalizeEmail(again)].id == first.freshId
  {
    var reg := Register(d, first, s, Text(email), Text(password));
    assert NormalizeEmail(email) in reg.store.docs;
  }

  /** The id a registration writes into the session resolves, on a later
      request, to the registered user, and `/auth/me` answers with the same
      `{id, email}` the registration returned. */
  lemma RegisterThenMe(d: Deps, first: Env, second: Env, s: Store, email: string, password: string)
    requires Valid(s)
    requires d.validId(first.freshId)
    requires !Throws(second, LookupId)
    requires Register(d, first, s, Text(email), Text(password)).response.status == 201
    ensures var reg := Register(d, first, s, Text(email), Text(password));
      var resolved := DeserializeUser(d, second, reg.store, reg.session.value);
      && resolved.Ok? && resolved.value.Some?
      && Me(resolved.value).status == 200
      && Get(Me(resolved.value).body.value, "user") == Get(reg.response.body.value, "user")
  {
    var reg := Register(d, first, s, Text(email), Text(password));
    assert FindByEmail(reg.store, email).value.id == first.freshId;
    SessionRoundTrip(d, second, reg.store, email);
  }

  /** A request of the authentication API. */
  datatype Request =
    | RegisterRequest(env: Env, email: Field, password: Field)
    | LoginRequest(env: Env, email: Field, password: Field)
    | LogoutRequest(env: Env)

  /** The store after handling one request. */
  function Handle(d: Deps, s: Store, request: Request): (s': Store)
    ensures Valid(s) ==> Valid(s')
    ensures |s'.docs| <= |s.docs| + 1
  {
    match request
    case RegisterRequest(env, email, password) =>
      var s' := Register(d, env, s, email, password).store;
      assert s' != s ==> |s'.docs| == |s.docs| + 1;
      s'
    case LoginRequest(env, email, password) => Login(d, env, s, email, password).store
    case LogoutRequest(_) => s
  }

  /** The store after handling `requests` in order. */
  function Run(d: Deps, s: Store, requests: seq<Request>): (r: Store)
    decreases |requests|
  {
    if requests == [] then s else Run(d, Handle(d, s, requests[0]), requests[1..])
  }

  /** Whatever requests arrive, the store keeps one record per normalised
      email and distinct ids, and grows by at most one record per request. */
  lemma {:induction false} RunKeepsStoreValid(d: Deps, s: Store, requests: seq<Request>)
    requires Valid(s)
    ensures Valid(Run(d, s, requests))
    ensures |Run(d, s, requests).docs| <= |s.docs| + |requests|
    decreases |requests|
  {
    if requests != [] {
      RunKeepsStoreValid(d, Handle(d, s, requests[0]), requests[1..]);
    }
  }
}

=== FILE: html.dfy ===
/** `escapeHtml` of src/routes/users.js: five global single-character
    replacements applied in sequence, `&` first. */
module Html {

  /** `s.replace(/c/g, by)` for a one-character pattern. */
  function ReplaceAll(s: string, c: char, with: string): (r: string)
    ensures c !in with ==> c !in r
    ensures c !in s ==> r == s
  {
    if s == [] then []
    else (if s[0] == c then with else [s[0]]) + ReplaceAll(s[1..], c, with)
  }

  /** The escaping as the source writes it. */
  function EscapeHtml(s: string): (r: string) {
    var amp := ReplaceAll(s, '&', "&amp;");
    var lt := ReplaceAll(amp, '<', "&lt;");
    var gt := ReplaceAll(lt, '>', "&gt;");
    var quot := ReplaceAll(gt, '"', "&quot;");
    ReplaceAll(quot, '\'', "&#39;")
  }

  /** The five characters that are replaced by an entity. */
  predicate IsSpecial(c: char) {
    c == '&' || c == '<' || c == '>' || c == '"' || c == '\''
  }

  /** The characters that may not appear unescaped in the output at all. */
  predicate IsMarkup(c: char) {
    c == '<' || c == '>' || c == '"' || c == '\''
  }

  /** What one input character becomes: the reference definition of escaping. */
  function Entity(c: char): (r: string)
    ensures |r| >= 1 && r[0] == (if IsSpecial(c) then '&' else c)
    ensures |r| == 1 <==> !IsSpecial(c)
  {
    match c
    case '&' => "&amp;"
    case '<' => "&lt;"
    case '>' => "&gt;"
    case '"' => "&quot;"
    case '\'' => "&#39;"
    case _ => [c]
  }

  /** Escaping character by character, in order. */
  function EscapeEach(s: string): (r: string) {
    if s == [] then [] else Entity(s[0]) + EscapeEach(s[1..])
  }

  /** `t` begins with one of the five entities. */
  predicate StartsEntity(t: string) {
    "&amp;" <= t || "&lt;" <= t || "&gt;" <= t || "&quot;" <= t || "&#39;" <= t
  }

  /** Decoding of the five entities, scanning left to right; any other
      character is copied. */
  function Unescape(t: string): (r: string)
    decreases |t|
  {
    if t == [] then []
    else if "&amp;" <= t then ['&'] + Unescape(t[5..])
    else if "&lt;" <= t then ['<'] + Unescape(t[4..])
    else if "&gt;" <= t then ['>'] + Unescape(t[4..])
    else if "&quot;" <= t then ['"'] + Unescape(t[6..])
    else if "&#39;" <= t then ['\''] + Unescape(t[5..])
    else [t[0]] + Unescape(t[1..])
  }

  /** A global replacement acts on each part of a concatenation separately. */
  lemma {:induction false} ReplaceAllAppend(a: string, b: string, c: char, with: string)
    ensures ReplaceAll(a + b, c, with) == ReplaceAll(a, c, with) + ReplaceAll(b, c, with)
  {
    if a == [] {
      assert a + b == b;
    } else {
      assert (a + b)[0] == a[0];
      assert (a + b)[1..] == a[1..] + b;
      ReplaceAllAppend(a[1..], b, c, with);
    }
  }

  /** Escaping commutes with concatenation. */
  lemma EscapeHtmlAppend(a: string, b: string)
    ensures EscapeHtml(a + b) == EscapeHtml(a) + EscapeHtml(b)
  {
    var a1, b1 := ReplaceAll(a, '&', "&amp;"), ReplaceAll(b, '&', "&amp;");
    ReplaceAllAppend(a, b, '&', "&amp;");
    var a2, b2 := ReplaceAll(a1, '<', "&lt;"), ReplaceAll(b1, '<', "&lt;");
    ReplaceAllAppend(a1, b1, '<', "&lt;");
    var a3, b3 := ReplaceAll(a2, '>', "&gt;"), ReplaceAll(b2, '>', "&gt;");
    ReplaceAllAppend(a2, b2, '>', "&gt;");
    var a4, b4 := ReplaceAll(a3, '"', "&quot;"), ReplaceAll(b3, '"', "&quot;");
    ReplaceAllAppend(a3, b3, '"', "&quot;");
    ReplaceAllAppend(a4, b4, '\'', "&#39;");
  }

  /** A single character escapes to its entity: since `&` is replaced first,
      no entity written by a later pass is escaped again. */
  lemma EscapeHtmlChar(c: char)
    ensures EscapeHtml([c]) == Entity(c)
  {
    ReplaceAllOne(c, '&', "&amp;");
    var amp := ReplaceAll([c], '&', "&amp;");
    if c == '&' {
      assert '<' !in amp && '>' !in amp && '"' !in amp && '\'' !in amp;
    } else {
      ReplaceAllOne(c, '<', "&lt;");
      var lt := ReplaceAll(amp, '<', "&lt;");
      if c == '<' {
        assert '>' !in lt && '"' !in lt && '\'' !in lt;
      } else {
        ReplaceAllOne(c, '>', "&gt;");
        var gt := ReplaceAll(lt, '>', "&gt;");
        if c == '>' {
          assert '"' !in gt && '\'' !in gt;
        } else {
          ReplaceAllOne(c, '"', "&quot;");
          ReplaceAllOne(c, '\'', "&#39;");
        }
      }
    }
  }

  lemma ReplaceAllOne(c: char, p: char, with: string)
    ensures ReplaceAll([c], p, with) == if c == p then with else [c]
  {
    assert [c][1..] == [];
  }

  /** The five passes of the source compute the per-character escaping. */
  lemma {:induction false} EscapeHtmlIsPerChar(s: string)
    ensures EscapeHtml(s) == EscapeEach(s)
  {
    if s == [] {
      assert EscapeHtml([]) == [];
    } else {
      assert s == [s[0]] + s[1..];
      EscapeHtmlAppend([s[0]], s[1..]);
      EscapeHtmlChar(s[0]);
      EscapeHtmlIsPerChar(s[1..]);
    }
  }

  /** The output contains none of `<`, `>`, `"` and `'`. */
  lemma {:induction false} EscapedHasNoMarkup(s: string)
    ensures forall i :: 0 <= i < |EscapeHtml(s)| ==> !IsMarkup(EscapeHtml(s)[i])
  {
    EscapeHtmlIsPerChar(s);
    EscapeEachHasNoMarkup(s);
  }

  lemma {:induction false} EscapeEachHasNoMarkup(s: string)
    ensures forall i :: 0 <= i < |EscapeEach(s)| ==> !IsMarkup(EscapeEach(s)[i])
  {
    if s != [] {
      EscapeEachHasNoMarkup(s[1..]);
      var e, rest := Entity(s[0]), EscapeEach(s[1..]);
      assert forall i :: 0 <= i < |e| ==> !IsMarkup(e[i]);
      assert forall i :: |e| <= i < |e + rest| ==> (e + rest)[i] == rest[i - |e|];
    }
  }

  /** Every `&` in the output opens one of the five entities. */
  lemma EscapedAmpersandsStartEntities(s: string)
    ensures forall i :: 0 <= i < |EscapeHtml(s)| && EscapeHtml(s)[i] == '&' ==>
      StartsEntity(EscapeHtml(s)[i..])
  {
    EscapeHtmlIsPerChar(s);
    EscapeEachAmpersands(s);
  }

  lemma {:induction false} EscapeEachAmpersands(s: string)
    ensures forall i :: 0 <= i < |EscapeEach(s)| && EscapeEach(s)[i] == '&' ==>
      StartsEntity(EscapeEach(s)[i..])
  {
    if s != [] {
      EscapeEachAmpersands(s[1..]);
      var e, rest := Entity(s[0]), EscapeEach(s[1..]);
      var r := e + rest;
      assert r == EscapeEach(s);
      forall i | 0 <= i < |r| && r[i] == '&'
        ensures StartsEntity(r[i..])
      {
        if i < |e| {
          assert i == 0;
          assert e <= r;
        } else {
          assert r[i..] == rest[i - |e|..];
        }
      }
    }
  }

  /** Output length is at least the input length, and equal exactly when the
      input holds none of the five special characters. */
  lemma {:induction false} EscapeHtmlLength(s: string)
    ensures |EscapeHtml(s)| >= |s|
    ensures |EscapeHtml(s)| == |s| <==> forall i :: 0 <= i < |s| ==> !IsSpecial(s[i])
  {
    EscapeHtmlIsPerChar(s);
    EscapeEachLength(s);
  }

  lemma {:induction false} EscapeEachLength(s: string)
    ensures |EscapeEach(s)| >= |s|
    ensures |EscapeEach(s)| == |s| <==> forall i :: 0 <= i < |s| ==> !IsSpecial(s[i])
  {
    if s != [] {
      EscapeEachLength(s[1..]);
      assert forall i :: 1 <= i < |s| ==> s[i] == s[1..][i - 1];
    }
  }

  /** Text without special characters passes through unchanged. */
  lemma {:induction false} EscapeHtmlKeepsPlainText(s: string)
    requires forall i :: 0 <= i < |s| ==> !IsSpecial(s[i])
    ensures EscapeHtml(s) == s
  {
    EscapeHtmlIsPerChar(s);
    EscapeEachKeepsPlainText(s);
  }

  lemma {:induction false} EscapeEachKeepsPlainText(s: string)
    requires forall i :: 0 <= i < |s| ==> !IsSpecial(s[i])
    ensures EscapeEach(s) == s
  {
    if s != [] {
      assert forall i :: 0 <= i < |s[1..]| ==> s[1..][i] == s[i + 1];
      EscapeEachKeepsPlainText(s[1..]);
      assert s == [s[0]] + s[1..];
    }
  }

  /** Decoding the entities undoes one entity and leaves the rest. */
  lemma UnescapeEntity(c: char, rest: string)
    ensures Unescape(Entity(c) + rest) == [c] + Unescape(rest)
  {
    var t := Entity(c) + rest;
    match c
    case '&' =>
      assert "&amp;" <= t && t[5..] == rest;
    case '<' =>
      assert t[1] == 'l';
      assert "&lt;" <= t && t[4..] == rest;
    case '>' =>
      assert t[1] == 'g';
      assert "&gt;" <= t && t[4..] == rest;
    case '"' =>
      assert t[1] == 'q';
      assert "&quot;" <= t && t[6..] == rest;
    case '\'' =>
      assert t[1] == '#';
      assert "&#39;" <= t && t[5..] == rest;
    case _ =>
      assert t[0] == c && t[1..] == rest;
  }

  /** Decoding the five entities recovers the input. */
  lemma {:induction false} UnescapeEscape(s: string)
    ensures Unescape(EscapeHtml(s)) == s
  {
    EscapeHtmlIsPerChar(s);
    UnescapeEscapeEach(s);
  }

  lemma {:induction false} UnescapeEscapeEach(s: string)
    ensures Unescape(EscapeEach(s)) == s
  {
    if s != [] {
      UnescapeEntity(s[0], EscapeEach(s[1..]));
      UnescapeEscapeEach(s[1..]);
      assert s == [s[0]] + s[1..];
    }
  }

  /** Distinct inputs escape to distinct outputs. */
  lemma EscapeHtmlInjective(a: string, b: string)
    requires EscapeHtml(a) == EscapeHtml(b)
    ensures a == b
  {
    UnescapeEscape(a);
    UnescapeEscape(b);
  }
}

=== FILE: http.dfy ===
/** Responses as the handlers produce them: a status and either a JSON value
    (`res.json`) or HTML text (`res.send`). */
module Http {

  /** The JSON values the handlers emit; an object keeps its keys in
      insertion order, and `Stamp` is a `Date`, serialised by its ISO form. */
  datatype Value =
    | Str(s: string)
    | Num(n: int)
    | Stamp(t: int)
    | Arr(items: seq<Value>)
    | Obj(fields: seq<(string, Value)>)

  /** Some object anywhere inside `v` has the key `key`. */
  predicate HasKey(v: Value, key: string) {
    match v
    case Arr(items) => exists i :: 0 <= i < |items| && HasKey(items[i], key)
    case Obj(fields) => exists i :: 0 <= i < |fields| && (fields[i].0 == key || HasKey(fields[i].1, key))
    case _ => false
  }

  /** The value of the first field named `key` of an object. */
  function Get(v: Value, key: string): (r: Value)
    decreases if v.Obj? then |v.fields| else 0
  {
    if v.Obj? && |v.fields| > 0 then
      if v.fields[0].0 == key then v.fields[0].1 else Get(Obj(v.fields[1..]), key)
    else Str("")
  }

  /** The keys of an object, in order. */
  function Keys(v: Value): (r: seq<string>) {
    if v.Obj? then seq(|v.fields|, i requires 0 <= i < |v.fields| => v.fields[i].0) else []
  }

  datatype Body =
    | Json(value: Value)
    | Page(text: string)
    /** The `/users/page` document: the count shown under the heading and
        the list markup placed after it; the rest of the template is fixed
        text. */
    | UsersPage(found: nat, listing: string)

  datatype Response = Response(status: int, body: Body)

  /** A credential field of a request as the handler sees it: absent, or
      a string. */
  datatype Field = Missing | Text(s: string)

  /** JavaScript truthiness of a credential field. */
  predicate Truthy(f: Field) {
    f.Text? && f.s != ""
  }

  /** `{message}` */
  function Message(m: string): (r: Value)
    ensures Keys(r) == ["message"] && Get(r, "message") == Str(m)
    ensures !HasKey(r, "passwordHash")
  {
    var r := Obj([("message", Str(m))]);
    assert Keys(r) == ["message"];
    assert !HasKey(Str(m), "passwordHash");
    r
  }

  /** `{message, error: error.message}` */
  function MessageWithError(m: string, error: string): (r: Value)
    ensures Keys(r) == ["message", "error"]
    ensures Get(r, "message") == Str(m) && Get(r, "error") == Str(error)
    ensures !HasKey(r, "passwordHash")
  {
    var r := Obj([("message", Str(m)), ("error", Str(error))]);
    assert Keys(r) == ["message", "error"];
    assert !HasKey(Str(m), "passwordHash") && !HasKey(Str(error), "passwordHash");
    r
  }

  /** `{message, user}` */
  function MessageWithUser(m: string, user: Value): (r: Value)
    ensures Keys(r) == ["message", "user"]
    ensures Get(r, "message") == Str(m) && Get(r, "user") == user
    ensures HasKey(r, "passwordHash") <==> HasKey(user, "passwordHash")
  {
    var r := Obj([("message", Str(m)), ("user", user)]);
    assert Keys(r) == ["message", "user"];
    assert !HasKey(Str(m), "passwordHash");
    assert HasKey(user, "passwordHash") ==> HasKey(r, "passwordHash") by {
      assert r.fields[1].1 == user;
    }
    r
  }

  /** The public face of a user: `{id, email}`. */
  function PublicUser(id: string, email: string): (r: Value)
    ensures Keys(r) == ["id", "email"]
    ensures Get(r, "id") == Str(id) && Get(r, "email") == Str(email)
    ensures !HasKey(r, "passwordHash")
  {
    var r := Obj([("id", Str(id)), ("email", Str(email))]);
    assert Keys(r) == ["id", "email"];
    assert !HasKey(Str(id), "passwordHash") && !HasKey(Str(email), "passwordHash");
    r
  }

  /** The message of a JSON body, or the empty string. */
  function MessageOf(r: Response): (m: string) {
    if r.body.Json? && Get(r.body.value, "message").Str? then Get(r.body.value, "message").s else ""
  }

  /** A response that carries no password hash: no JSON key of that name. */
  predicate HidesHash(r: Response) {
    r.body.Json? ==> !HasKey(r.body.value, "passwordHash")
  }
}

=== FILE: passport.dfy ===
/** src/config/passport.js: the local strategy's verify callback and the
    session (de)serialisers, as functions from the store and the
    collaborators to an outcome. */
module Passport {
  import opened Base
  import opened Email
  import opened UserStore
  import opened World
  import opened Http

  /** The three ways the strategy can finish: `done(null, user)`,
      `done(null, false, info)` and `done(error)`. */
  datatype AuthResult = Authenticated(user: User) | Rejected(message: Option<string>) | Errored(error: Error)

  const InvalidCredentials := "Invalid credentials"

  /** The message passport-local fails with when a credential field is
      absent or empty, before the verify callback runs. */
  const MissingCredentials := "Missing credentials"

  /** The password matches the hash stored for the user found by email. */
  predicate PasswordMatches(d: Deps, s: Store, email: string, password: string) {
    FindByEmail(s, email).Some? && d.compare(password, FindByEmail(s, email).value.passwordHash)
  }

  /** The verify callback: look the user up by email, compare the password
      against the stored hash, and reject both an unknown email and a wrong
      password with the same message. */
  function Verify(d: Deps, env: Env, s: Store, email: string, password: string): (r: AuthResult)
    ensures r.Errored? <==>
      Throws(env, LookupEmail) || (FindByEmail(s, email).Some? && Throws(env, ComparePassword))
    ensures r.Authenticated? <==>
      !Throws(env, LookupEmail) && !Throws(env, ComparePassword) && PasswordMatches(d, s, email, password)
    ensures r.Authenticated? ==> Some(r.user) == FindByEmail(s, email)
    ensures r.Rejected? ==> r == Rejected(Some(InvalidCredentials))
  {
    if Throws(env, LookupEmail) then Errored(env.faults[LookupEmail])
    else
      match FindByEmail(s, email)
      case None => Rejected(Some(InvalidCredentials))
      case Some(user) =>
        if Throws(env, ComparePassword) then Errored(env.faults[ComparePassword])
        else if d.compare(password, user.passwordHash) then Authenticated(user)
        else Rejected(Some(InvalidCredentials))
  }

  /** `passport.authenticate("local")`: `email` and `password` are the
      values passport-local resolves for its two credential fields (the
      request body's, falling back to the query string's). It fails with
      its own message when either is falsy; otherwise the verify callback
      decides. */
  function Authenticate(d: Deps, env: Env, s: Store, email: Field, password: Field): (r: AuthResult)
    ensures !Truthy(email) || !Truthy(password) ==> r == Rejected(Some(MissingCredentials))
    ensures Truthy(email) && Truthy(password) ==> r == Verify(d, env, s, email.s, password.s)
  {
    if !Truthy(email) || !Truthy(password) then Rejected(Some(MissingCredentials))
    else Verify(d, env, s, email.s, password.s)
  }

  /** An unknown email and a wrong password are rejected identically. */
  lemma RejectionsIndistinguishable(d: Deps, env: Env, s: Store, unknown: string, p: string, known: string, wrong: string)
    requires !Throws(env, LookupEmail) && !Throws(env, ComparePassword)
    requires FindByEmail(s, unknown).None?
    requires FindByEmail(s, known).Some? && !d.compare(wrong, FindByEmail(s, known).value.passwordHash)
    ensures Verify(d, env, s, unknown, p) == Verify(d, env, s, known, wrong) == Rejected(Some(InvalidCredentials))
  {
  }

  /** Login looks the email up through its normal form, so case and
      surrounding white space do not matter. */
  lemma VerifyIgnoresEmailForm(d: Deps, env: Env, s: Store, a: string, b: string, password: string)
    requires NormalizeEmail(a) == NormalizeEmail(b)
    ensures Verify(d, env, s, a, password) == Verify(d, env, s, b, password)
  {
    FindByEmailIgnoresForm(s, a, b);
  }

  /** `serializeUser`: the session stores the user's id and nothing else. */
  function SerializeUser(user: User): (r: string) {
    user.id
  }

  /** `deserializeUser`: the user with the session's id, `false` (no
      identity) when there is none or the id is malformed, or the lookup's
      error. A malformed id is answered by `findById` before any query, so
      only a well-formed id can reach a failing lookup. */
  ghost function DeserializeUser(d: Deps, env: Env, s: Store, id: string): (r: Result<Option<User>>)
    ensures r.Fail? <==> d.validId(id) && Throws(env, LookupId)
    ensures r.Fail? ==> r.error == env.faults[LookupId]
    ensures !d.validId(id) ==> r == Ok(None)
    ensures r.Ok? ==> r.value == FindById(d.validId, s, id)
    ensures r.Ok? && r.value.Some? ==> r.value.value.id == id
  {
    if !d.validId(id) then Ok(None)
    else if Throws(env, LookupId) then Fail(env.faults[LookupId])
    else Ok(FindById(d.validId, s, id))
  }

  /** A stored user written into the session is read back as the same
      user on the next request. */
  lemma SessionRoundTrip(d: Deps, env: Env, s: Store, email: string)
    requires Valid(s)
    requires FindByEmail(s, email).Some?
    requires d.validId(FindByEmail(s, email).value.id)
    requires !Throws(env, LookupId)
    ensures DeserializeUser(d, env, s, SerializeUser(FindByEmail(s, email).value)) == Ok(FindByEmail(s, email))
  {
    FindByIdOfStored(d.validId, s, email);
  }

  /** `req.isAuthenticated()`: a user was resolved from the session. */
  predicate IsAuthenticated(user: Option<User>) {
    user.Some?
  }
}

=== FILE: user_store.dfy ===
/** src/data/userStore.js over an abstract collection: the users collection
    is a map from normalised email to the stored document, so the unique
    email index is the map's own key uniqueness. */
module UserStore {
  import opened Base
  import opened Email

  /** A stored user document apart from its email key: `_id`, the bcrypt
      hash and the Mongoose timestamps. */
  datatype Doc = Doc(id: string, passwordHash: string, createdAt: int, updatedAt: int)

  datatype Store = Store(docs: map<string, Doc>)

  /** The shape `mapUser` returns. */
  datatype User = User(id: string, email: string, passwordHash: string, createdAt: int)

  /** The shape of one `listUsers` entry. */
  datatype Summary = Summary(id: string, email: string, createdAt: int)

  /** What the collection's indexes guarantee: every key is a normalised
      email and no two documents share an `_id`. */
  ghost predicate Valid(s: Store) {
    && (forall e :: e in s.docs ==> IsNormal(e))
    && (forall e, e' :: e in s.docs && e' in s.docs && s.docs[e].id == s.docs[e'].id ==> e == e')
  }

  /** In a valid store two emails with the same normal form are the same
      key: at most one record per normalised email. */
  lemma OneRecordPerEmail(s: Store, a: string, b: string)
    requires Valid(s) && a in s.docs && b in s.docs
    requires NormalizeEmail(a) == NormalizeEmail(b)
    ensures a == b
  {
    NormalizeFixesNormal(a);
    NormalizeFixesNormal(b);
  }

  predicate IdInUse(s: Store, id: string) {
    exists e :: e in s.docs && s.docs[e].id == id
  }

  /** `mapUser`: null stays null; a document is reduced to id, email,
      password hash and creation time. */
  function MapUser(found: Option<(string, Doc)>): (r: Option<User>)
    ensures r.None? <==> found.None?
    ensures found.Some? ==> var (e, d) := found.value;
      r.value.id == d.id && r.value.email == e
      && r.value.passwordHash == d.passwordHash && r.value.createdAt == d.createdAt
  {
    match found
    case None => None
    case Some((e, d)) => Some(User(d.id, e, d.passwordHash, d.createdAt))
  }

  /** `findByEmail`: an exact match on the normalised email. */
  function FindByEmail(s: Store, email: string): (r: Option<User>)
    ensures r.Some? <==> NormalizeEmail(email) in s.docs
    ensures r.Some? ==>
      r.value.email == NormalizeEmail(email) && MapUser(Some((r.value.email, s.docs[r.value.email]))) == r
  {
    var key := NormalizeEmail(email);
    MapUser(if key in s.docs then Some((key, s.docs[key])) else None)
  }

  /** Lookup depends on the email only through its normal form. */
  lemma FindByEmailIgnoresForm(s: Store, a: string, b: string)
    requires NormalizeEmail(a) == NormalizeEmail(b)
    ensures FindByEmail(s, a) == FindByEmail(s, b)
  {
  }

  /** `findById`: an id failing the identifier check is answered with null
      whatever the store holds; otherwise the document with that `_id`. */
  ghost function FindById(validId: string -> bool, s: Store, id: string): (r: Option<User>)
    ensures !validId(id) ==> r.None?
    ensures validId(id) ==> (r.Some? <==> IdInUse(s, id))
    ensures r.Some? ==>
      r.value.id == id && r.value.email in s.docs && MapUser(Some((r.value.email, s.docs[r.value.email]))) == r
  {
    if !validId(id) then None
    else if IdInUse(s, id) then
      var e :| e in s.docs && s.docs[e].id == id;
      MapUser(Some((e, s.docs[e])))
    else None
  }

  /** In a valid store a user found by email is found again by its id. */
  lemma FindByIdOfStored(validId: string -> bool, s: Store, email: string)
    requires Valid(s)
    requires FindByEmail(s, email).Some?
    requires validId(FindByEmail(s, email).value.id)
    ensures FindById(validId, s, FindByEmail(s, email).value.id) == FindByEmail(s, email)
  {
    var u := FindByEmail(s, email).value;
    assert s.docs[u.email].id == u.id;
  }

  /** `createUser`: insert `{email: normalizeEmail(email), passwordHash}`
      with the driver-chosen `_id` and clock reading `now`, and map the
      created document. The unique indexes on email and `_id` reject a
      clashing insert with a duplicate-key error. */
  function CreateUser(s: Store, email: string, passwordHash: string, newId: string, now: int)
    : (r: Result<(User, Store)>)
    ensures r.Ok? <==> NormalizeEmail(email) !in s.docs && !IdInUse(s, newId)
    ensures r.Fail? ==> r.error.code == Some(DuplicateKeyCode)
    ensures r.Ok? ==> var (u, s') := r.value;
      && u == User(newId, NormalizeEmail(email), passwordHash, now)
      && s'.docs == s.docs[NormalizeEmail(email) := Doc(newId, passwordHash, now, now)]
    ensures r.Ok? && Valid(s) ==> Valid(r.value.1)
  {
    var key := NormalizeEmail(email);
    if key in s.docs || IdInUse(s, newId) then
      Fail(Error(Some(DuplicateKeyCode), "E11000 duplicate key error collection: users"))
    else
      var d := Doc(newId, passwordHash, now, now);
      Ok((MapUser(Some((key, d))).value, Store(s.docs[key := d])))
  }

  /** After a successful create, every spelling of the same email finds
      the created record. */
  lemma CreateThenFind(s: Store, email: string, passwordHash: string, newId: string, now: int, other: string)
    requires CreateUser(s, email, passwordHash, newId, now).Ok?
    requires NormalizeEmail(other) == NormalizeEmail(email)
    ensures var (u, s') := CreateUser(s, email, passwordHash, newId, now).value;
      FindByEmail(s', other) == Some(u)
  {
  }

  /** The public listing entry of a stored document. */
  function Summarize(e: string, d: Doc): (r: Summary) {
    Summary(d.id, e, d.createdAt)
  }

  /** Sorted by `createdAt`, newest first. */
  predicate NewestFirst(xs: seq<Summary>) {
    forall i, j :: 0 <= i < j < |xs| ==> xs[i].createdAt >= xs[j].createdAt
  }

  /** An entry no older than every element may go in front. */
  lemma PrependNewest(x: Summary, xs: seq<Summary>)
    requires NewestFirst(xs)
    requires forall k :: 0 <= k < |xs| ==> xs[k].createdAt <= x.createdAt
    ensures NewestFirst([x] + xs)
  {
    var r := [x] + xs;
    assert forall k :: 0 < k < |r| ==> r[k] == xs[k - 1];
  }

  /** Insertion into a newest-first list. */
  function InsertByDate(u: Summary, xs: seq<Summary>): (r: seq<Summary>)
    requires NewestFirst(xs)
    ensures NewestFirst(r)
    ensures |r| == |xs| + 1
    ensures forall x :: x in r <==> x == u || x in xs
    ensures multiset(r) == multiset(xs) + multiset{u}
  {
    if xs == [] || xs[0].createdAt <= u.createdAt then
      assert forall k :: 0 <= k < |xs| ==> xs[k].createdAt <= xs[0].createdAt;
      PrependNewest(u, xs);
      [u] + xs
    else
      var x0, tail := xs[0], xs[1..];
      assert xs == [x0] + tail;
      var rest := InsertByDate(u, tail);
      assert forall k :: 0 <= k < |rest| ==> rest[k].createdAt <= x0.createdAt by {
        forall k | 0 <= k < |rest| ensures rest[k].createdAt <= x0.createdAt {
          assert rest[k] in rest;
        }
      }
      PrependNewest(x0, rest);
      [x0] + rest
  }

  /** `listUsers`: every stored user, projected to id, email and creation
      time, newest first. The order among equal timestamps is the
      database's choice and is left open. */
  method ListUsers(s: Store) returns (r: seq<Summary>)
    ensures NewestFirst(r)
    ensures |r| == |s.docs|
    ensures forall i :: 0 <= i < |r| ==>
      r[i].email in s.docs && r[i] == Summarize(r[i].email, s.docs[r[i].email])
    ensures forall e :: e in s.docs ==> Summarize(e, s.docs[e]) in r
  {
    var remaining := s.docs.Keys;
    r := [];
    while remaining != {}
      invariant remaining <= s.docs.Keys
      invariant NewestFirst(r)
      invariant |r| + |remaining| == |s.docs|
      invariant forall x :: x in r ==>
        x.email in s.docs && x.email !in remaining && x == Summarize(x.email, s.docs[x.email])
      invariant forall e :: e in s.docs && e !in remaining ==> Summarize(e, s.docs[e]) in r
      decreases remaining
    {
      var e :| e in remaining;
      r := InsertByDate(Summarize(e, s.docs[e]), r);
      remaining := remaining - {e};
    }
    assert forall i :: 0 <= i < |r| ==> r[i] in r;
  }
}

=== FILE: users_routes.dfy ===
/** src/routes/users.js: the JSON listing and the HTML listing page, both
    behind the `requireAuth` gate of src/middleware/requireAuth.js. */
module UsersRoutes {
  import opened Base
  import opened UserStore
  import opened World
  import opened Http
  import opened Html
  import opened Passport

  const Unauthorized := "Unauthorized. Please log in."
  const NoUsersMarkup := "<p>No users found in MongoDB yet.</p>"

  /** One listing entry as JSON: `{id, email, createdAt}`. */
  function SummaryJson(u: Summary): (r: Value)
    ensures Keys(r) == ["id", "email", "createdAt"]
    ensures Get(r, "id") == Str(u.id) && Get(r, "email") == Str(u.email) && Get(r, "createdAt") == Stamp(u.createdAt)
    ensures !HasKey(r, "passwordHash")
  {
    var r := Obj([("id", Str(u.id)), ("email", Str(u.email)), ("createdAt", Stamp(u.createdAt))]);
    assert Keys(r) == ["id", "email", "createdAt"];
    assert forall i :: 0 <= i < 3 ==> !HasKey(r.fields[i].1, "passwordHash");
    assert Get(r, "createdAt") == Get(Obj(r.fields[1..]), "createdAt") == Get(Obj(r.fields[2..]), "createdAt");
    r
  }

  function SummariesJson(users: seq<Summary>): (r: Value)
    ensures r.Arr? && |r.items| == |users|
    ensures forall i :: 0 <= i < |users| ==> r.items[i] == SummaryJson(users[i])
    ensures !HasKey(r, "passwordHash")
  {
    Arr(seq(|users|, i requires 0 <= i < |users| => SummaryJson(users[i])))
  }

  /** One `<li>`: the email escaped, then the formatted creation time. */
  function ListItem(u: Summary, formatDate: int -> string): (r: string)
    ensures var n := |EscapeHtml(u.email)|;
      && 12 + n <= |r| && r[..12] == "<li><strong>"
      && (forall i :: 12 <= i < 12 + n ==> !IsMarkup(r[i]))
      && Unescape(r[12..12 + n]) == u.email
  {
    var open := "<li><strong>";
    var e := EscapeHtml(u.email);
    var tail := "</strong> - " + formatDate(u.createdAt) + "</li>";
    EscapedHasNoMarkup(u.email);
    UnescapeEscape(u.email);
    var r := open + (e + tail);
    assert |open| == 12;
    assert r[..12] == open;
    assert r[12..] == e + tail;
    assert r[12..12 + |e|] == (e + tail)[..|e|] == e;
    r
  }

  /** The `<li>` of each user in turn: nothing exactly when there is no user. */
  function ListItems(users: seq<Summary>, formatDate: int -> string): (r: string)
    ensures r == "" <==> users == []
    ensures users != [] ==> |r| >= 12 && r[..12] == "<li><strong>"
  {
    if users == [] then "" else ListItem(users[0], formatDate) + ListItems(users[1..], formatDate)
  }

  /** `open + inner + close`, which begins with `open`. */
  function Wrapped(open: string, inner: string, close: string): (r: string)
    ensures open <= r
  {
    var r := open + inner + close;
    assert r[..|open|] == open;
    r
  }

  /** `usersListMarkup`: the "no users" paragraph exactly when the list is
      empty, otherwise an `<ul>` of the entries. */
  function ListMarkup(users: seq<Summary>, formatDate: int -> string): (r: string)
    ensures r == NoUsersMarkup <==> |users| == 0
    ensures |users| > 0 ==> "<ul>" <= r
    ensures |users| > 0 ==> r == "<ul>" + ListItems(users, formatDate) + "</ul>"
  {
    if |users| == 0 then NoUsersMarkup
    else
      Wrapped("<ul>", ListItems(users, formatDate), "</ul>")
  }

  /** Listing entries whose `createdAt` stamps never increase: newest first. */
  predicate NewestFirstJson(items: seq<Value>) {
    && (forall i :: 0 <= i < |items| ==> Get(items[i], "createdAt").Stamp?)
    && (forall i, j :: 0 <= i < j < |items| ==> Get(items[i], "createdAt").t >= Get(items[j], "createdAt").t)
  }

  /** Rendering newest-first summaries as JSON keeps them newest first. */
  lemma SummariesKeepOrder(users: seq<Summary>)
    requires NewestFirst(users)
    ensures NewestFirstJson(SummariesJson(users).items)
  {
    var items := SummariesJson(users).items;
    forall i, j | 0 <= i < j < |items|
      ensures Get(items[i], "createdAt").t >= Get(items[j], "createdAt").t
    {
      assert items[i] == SummaryJson(users[i]) && items[j] == SummaryJson(users[j]);
    }
  }

  /** `GET /users`. */
  method ListRoute(env: Env, s: Store, user: Option<User>) returns (r: Response)
    ensures HidesHash(r)
    ensures !IsAuthenticated(user) ==> r.status == 401 && MessageOf(r) == Unauthorized
    ensures IsAuthenticated(user) && Throws(env, ListAll) ==>
      r == Response(500, Json(MessageWithError("Failed to load users from MongoDB.", env.faults[ListAll].message)))
    ensures IsAuthenticated(user) && !Throws(env, ListAll) ==>
      && r.status == 200 && r.body.Json?
      && Keys(r.body.value) == ["total", "users"]
      && Get(r.body.value, "total") == Num(|s.docs|)
      && Get(r.body.value, "users").Arr? && |Get(r.body.value, "users").items| == |s.docs|
      && (forall e :: e in s.docs ==> SummaryJson(Summarize(e, s.docs[e])) in Get(r.body.value, "users").items)
      && NewestFirstJson(Get(r.body.value, "users").items)
  {
    if !IsAuthenticated(user) {
      return Response(401, Json(Message(Unauthorized)));
    }
    if Throws(env, ListAll) {
      return Response(500, Json(MessageWithError("Failed to load users from MongoDB.", env.faults[ListAll].message)));
    }
    var users := ListUsers(s);
    var items := SummariesJson(users);
    var body := Obj([("total", Num(|users|)), ("users", items)]);
    assert Keys(body) == ["total", "users"];
    assert !HasKey(body, "passwordHash") by {
      assert !HasKey(body.fields[0].1, "passwordHash") && !HasKey(body.fields[1].1, "passwordHash");
    }
    forall e | e in s.docs
      ensures SummaryJson(Summarize(e, s.docs[e])) in items.items
    {
      var k :| 0 <= k < |users| && users[k] == Summarize(e, s.docs[e]);
      assert items.items[k] == SummaryJson(users[k]);
    }
    SummariesKeepOrder(users);
    assert Get(body, "users") == items;
    r := Response(200, Json(body));
  }

  /** `GET /users/page`: the count of stored users and their list, or an
      error page whose message is escaped. */
  method PageRoute(env: Env, s: Store, user: Option<User>, formatDate: int -> string) returns (r: Response)
    ensures !IsAuthenticated(user) ==> r.status == 401 && MessageOf(r) == Unauthorized
    ensures IsAuthenticated(user) && Throws(env, ListAll) ==>
      r == Response(500, Page("<h1>Failed to load users</h1><p>" + EscapeHtml(env.faults[ListAll].message) + "</p>"))
    ensures IsAuthenticated(user) && !Throws(env, ListAll) ==>
      && r.status == 200 && r.body.UsersPage?
      && r.body.found == |s.docs|
      && (r.body.listing == NoUsersMarkup <==> |s.docs| == 0)
  {
    if !IsAuthenticated(user) {
      return Response(401, Json(Message(Unauthorized)));
    }
    if Throws(env, ListAll) {
      var text := "<h1>Failed to load users</h1><p>" + EscapeHtml(env.faults[ListAll].message) + "</p>";
      return Response(500, Page(text));
    }
    var users := ListUsers(s);
    r := Response(200, UsersPage(|users|, ListMarkup(users, formatDate)));
  }
}

=== FILE: world.dfy ===
/** The collaborators the handlers call but whose code is not modelled:
    bcrypt, Mongoose's identifier check, and the per-request behaviour of
    the database, the clock and the session layer. */
module World {
  import opened Base

  /** Collaborators that are fixed for the life of the process.
      `hash(password, salt)` is `bcrypt.hash`, `compare(password, hash)` is
      `bcrypt.compare`, `validId` is Mongoose's `isValidObjectId`. */
  datatype Deps = Deps(
    hash: (string, string) -> string,
    compare: (string, string) -> bool,
    validId: string -> bool)

  /** The one property of bcrypt the handlers rely on: a password matches
      its own hash, whatever salt was drawn. */
  ghost predicate HashSound(d: Deps) {
    forall password, salt :: d.compare(password, d.hash(password, salt))
  }

  /** The awaited calls a request can make, each at most once. */
  datatype Step =
    | LookupEmail    // User.findOne by email
    | LookupId       // User.findById
    | ListAll        // User.find for the listing
    | Insert         // User.create
    | HashPassword   // bcrypt.hash
    | ComparePassword // bcrypt.compare
    | SessionLogin   // req.login
    | SessionLogout  // req.logout
    | SessionDestroy // req.session.destroy

  /** What one request meets: which calls throw and with what error, the
      salt bcrypt draws, the `_id` the driver assigns to a new document
      and the clock reading used for its timestamps. */
  datatype Env = Env(faults: map<Step, Error>, salt: string, freshId: string, now: int)

  predicate Throws(env: Env, step: Step) {
    step in env.faults
  }
}
